=== FILE: README.md ===
# Bot supervisor: process registry and helpers

This project models the core of `app.py`, a Telegram bot through which users
create "user bots", upload a script (`app.py`) for each, install libraries
for them and run, stop, inspect and delete them. Each user bot lives in a
directory `<base>/<user id>/<bot name>`. Every started bot is recorded in a
process registry. The registry is a JSON file `processes.json` mapping the key
`"<user id>_<bot name>"` to the pid of the spawned process. Run loads it,
adds the new pid and saves it back. Stop and bot deletion load it and save
it back only when they remove a key. Status and the bot list only read it.

The model has these modules:

- `Registry` (`registry.dfy`) holds the registry as a value. Each function
  is the change one button makes to the loaded map: run registers, stop and
  delete unregister, and status reads. Lemmas relate these functions.
- `Supervisor` (`supervisor.dfy`) is the imperative part. A `Host` object
  holds the registry file (absent until first saved) and the bot
  directories with their file listings. A `Session` object holds the user's
  selected bot and whether a bot name is awaited. The handler methods `Run`,
  `Stop`, `DeleteBot`, `Status`, `SelectBot`, `NewBot`, `CreateBot` and
  `DeleteFile` change this state as the
  source does. `Run`, `Stop` and `DeleteBot` load, change and save the
  registry, and each is proved to make exactly the change its `Registry`
  function describes. `Status` only reads the registry; the other
  handlers never touch it.
- `Names` (`names.dfy`) holds the registry key and the normalisation of a
  typed bot name (`strip()`, then spaces become underscores).
- `Menus` (`menus.dfy`) holds the library keyboard (a loop that fills rows
  of three), the file menu (at most five `.py` files and three others,
  never `log.txt` or `bot.zip`), the files screen and the bot list with
  its running markers.
- `Views` (`views.dfy`) holds the log tail (last 2000 characters), the
  file preview (first 1500) and the installer's error excerpt (first 500).
- `Callbacks` (`callbacks.dfy`) maps button data to handler branches. It is
  the subject of the findings below.
- `Seqs` (`seqs.dfy`) holds Python slicing, filtering and flattening.

The code behaves as follows, and so does the model; it promises nothing
stronger:

- "Running" means only that the key is in the registry. No liveness check
  is made.
- Run overwrites an existing entry. There is no "already running" refusal.
- Stop removes the key whether or not the kill found a process.
- There is no locking and no atomic save.
- A file name from a button is joined to the bot directory without any
  traversal check.
- Bot names are not restricted beyond the normalisation.

## Model

| member | source | states |
|---|---|---|
| `Names.IsUserIdText` | app.py:157 | a user id as text (the decimal digits of the Telegram id) is non-empty and holds no `_` |
| `Names.RegistryKey` | app.py:86 | the key is the user id, then `_`, then the bot name, and each part can be read back at its position |
| `Names.RegistryKeyInjective` | app.py:86 | keys `f"{user_id}_{bot_name}"` of two (user, bot) pairs are equal exactly when the pairs are equal, for numeric user ids |
| `Names.IsSpace` | app.py:483 | the whitespace `strip()` removes: among ASCII characters exactly tab, line feed, vertical tab, form feed, carriage return, the separators 0x1C-0x1F and space, plus Python's non-ASCII whitespace |
| `Names.TrimLeft` | app.py:483 | the left half of `strip()`: a suffix of the text that does not start with whitespace |
| `Names.TrimRight` | app.py:483 | the right half of `strip()`: a prefix of the text that does not end with whitespace |
| `Names.Strip` | app.py:483 | `strip()` leaves no whitespace at either end (Python's `isspace` set) |
| `Names.StripExact` | app.py:483 | `strip()` removes exactly the leading and trailing whitespace and keeps the middle |
| `Names.ReplaceSpaces` | app.py:483 | `replace(" ", "_")` keeps the length, turns every space into `_` and changes no other character |
| `Names.NormaliseBotName` | app.py:483 | the bot name made from the typed text contains no space and is no longer than the text |
| `Names.NormaliseMarksSpaces` | app.py:483 | inside the surrounding whitespace, the name has `_` exactly where the typed name has a space or `_`, and every other character is kept |
| `Names.NormalisedNameShape` | app.py:483 | the normalised bot name has no space and no surrounding whitespace, and is as long as the stripped text |
| `Names.NormaliseIdempotent` | app.py:483 | normalising an already normalised name changes nothing |
| `Names.NormalisePlainName` | app.py:483 | text without whitespace becomes the bot name unchanged |
| `Supervisor.PaddedNameNormalises` | app.py:483 | the typed text " bot1 " becomes the bot name `bot1` |
| `Names.NormaliseDropsPadding` | app.py:483 | whitespace around a name without inner spaces is dropped and the name is kept |
| `Registry.Register` | app.py:247-250 | after `db[key] = pid` the key maps to the new pid, whatever it held before, and every other entry is kept |
| `Registry.Unregister` | app.py:280 | after `del db[key]` the key is gone and every other entry is kept |
| `Registry.Stop` | app.py:265-281 | an absent key gives "not running" with the map unchanged; a present key is removed whether or not a process was signalled; a kill error other than `ProcessLookupError` aborts with nothing changed |
| `Registry.Delete` | app.py:197-205 | a present key is removed after the kill; an absent key is no error; a kill error other than `ProcessLookupError` aborts |
| `Registry.RegisteredPid` | app.py:327-340 | status shows a pid exactly when the key is registered, and it is the stored pid |
| `Registry.RunThenStatus` | app.py:247-250 | after a run registers a pid, status shows that pid |
| `Registry.DeleteThenStatus` | app.py:197-205 | after a completed bot deletion, status shows no pid for it |
| `Registry.RegisterOverwrites` | app.py:247-250 | running twice keeps only the second pid; there is no "already running" check |
| `Registry.StopTwice` | app.py:268-281 | after a completed stop, a second stop reports "not running" and changes nothing |
| `Registry.OtherBotsUnaffected` | app.py:197-281 | run, stop and delete on one (user, bot) never change what the registry says about any other pair |
| `Supervisor.Host.constructor` | app.py:37-45 | a host starts with the given registry file (or none) and the given bot directories |
| `Supervisor.Session.constructor` | app.py:159 | a new session has no selected bot and is not waiting for a bot name |
| `Supervisor.HasApp` | app.py:227 | the `app.py` check holds only for a listed bot directory with at least one file |
| `Supervisor.Selected` | app.py:219 | `if not current_bot` refuses exactly when no bot is stored or the stored name is empty |
| `Supervisor.Host.LoadDb` | app.py:37-41 | `load_db` returns the stored map, or an empty map when the file does not exist |
| `Supervisor.Host.SaveDb` | app.py:43-45 | `save_db` makes the file hold exactly the given map |
| `Supervisor.WithLogFile` | app.py:234-238 | opening `log.txt` for writing makes it part of the listing and keeps the existing files in order; an existing log leaves the listing as it was, and at most one entry is added |
| `Supervisor.Run` | app.py:218-255 | with no bot selected, or no `app.py` in its directory, nothing changes; otherwise the spawned pid is registered (`Registry.Register`) and `log.txt` exists |
| `Supervisor.Stop` | app.py:257-286 | no selection refuses; otherwise the registry changes as `Registry.Stop` says, and the file is written only when a key was removed |
| `Supervisor.DeleteBot` | app.py:193-216 | the registry changes as `Registry.Delete` says, the directory is removed, and the selection is cleared only when it names the deleted bot; a kill error changes nothing |
| `Supervisor.Status` | app.py:315-345 | running exactly when the key is registered, the stored pid shown only then, `app.py` presence and the count of regular files |
| `Supervisor.SelectBot` | app.py:183-185 | the chosen bot becomes the selection |
| `Supervisor.NewBot` | app.py:175-181 | the new-bot button makes the session wait for a bot name |
| `Supervisor.CreateBot` | app.py:482-496 | handled only while the session waits for a name after the new-bot button; the name is the normalised text; an existing directory refuses with nothing made; otherwise an empty directory is made and selected; the session stops waiting for a name either way |
| `Supervisor.Without` | app.py:452-453 | removing a file leaves every other file, in order |
| `Supervisor.DeleteFile` | app.py:445-462 | the caller's file name is removed from the selected bot's directory exactly when it is listed there; with no selection nothing happens |
| `Supervisor.CreateThenRunScenario` | app.py:226-232 | after the new-bot button, a bot created from " bot1 " is named `bot1` and cannot run before `app.py` is uploaded |
| `Supervisor.StartStopScenario` | app.py:218-345 | run, status (running, pid shown, 2 files), stop, stop again ("not running"), status (not running) |
| `Menus.LibsKeyboard` | app.py:118-130 | the rows concatenate to one button per library in order; every row has 3 buttons except a non-empty last one; then the custom-libraries row and the back row |
| `Menus.CommonLibsKeyboard` | app.py:31-35 | the nine common libraries make three full rows and the two fixed rows |
| `Menus.IsPyFile` | app.py:101 | `f.endswith('.py')` holds exactly when the name's last three characters are `.py` |
| `Menus.IsHiddenFile` | app.py:102 | the two hidden names `log.txt` and `bot.zip` have seven characters and do not end in `.py` |
| `Menus.IsOtherFile` | app.py:102 | an "other" file is visible, and a visible file is "other" exactly when it does not end in `.py` |
| `Menus.IsVisibleFile` | app.py:404 | a file is shown exactly when it is neither `log.txt` nor `bot.zip` |
| `Menus.MenuFiles` | app.py:100-113 | at most 5 `.py` files and 3 other files, never `log.txt` or `bot.zip`, each in listing order and cut short only at its limit; they are the FIRST files of each kind, since any stretch of the listing with no more of a kind than the limit opens the menu |
| `Menus.PyFileNotHidden` | app.py:101-102 | a `.py` name is never `log.txt` or `bot.zip` |
| `Menus.MenuFilesHidesLogAndArchive` | app.py:100-113 | every listed file is in the directory and is neither `log.txt` nor `bot.zip` |
| `Menus.FileRow` | app.py:105-107 | a menu file's row has two buttons, routed by prefix to viewing and to deleting that same file |
| `Menus.FilesKeyboard` | app.py:97-116 | one view/delete row per menu file, then the back row; only the back row when the directory is missing |
| `Menus.FilesMenuScreen` | app.py:401-415 | "no files" exactly when every file is hidden or the directory is missing; otherwise the count of visible files and the keyboard |
| `Menus.BotList` | app.py:80-95 | each bot in listing order, marked running exactly when its key is registered |
| `Menus.BotsKeyboard` | app.py:85-95 | one row per bot in listing order holding its `select_` and `delbot_` data, then the new-bot row and the back row |
| `Menus.BotsKeyboardRoutes` | app.py:85-95 | every bot's buttons reach that bot under routing by prefix; as written they reach it exactly when its name does not contain the button's prefix |
| `Menus.LibButtons` | app.py:121-122 | one `lib_<name>` button per library, in order |
| `Views.ViewLog` | app.py:296-308 | no log file, a failing read (the handler raises and sends nothing), an empty-log placeholder, or the non-empty last ≤ 2000 characters of the log |
| `Views.ReportInstall` | app.py:375-384 | success exactly on exit status 0; otherwise the first ≤ 500 characters of stderr |
| `Views.ViewFile` | app.py:424-443 | not found, unreadable, or the first ≤ 1500 characters of the file |
| `Views.ShortLogShownWhole` | app.py:304-305 | a non-empty log of at most 2000 characters is shown whole |
| `Callbacks.SelectData` | app.py:89 | a bot's select data is `select_` followed by the bot name |
| `Callbacks.DeleteBotData` | app.py:90 | a bot's delete data is `delbot_` followed by the bot name |
| `Callbacks.LibData` | app.py:122 | a library's button data is `lib_` followed by the library name |
| `Callbacks.ViewData` | app.py:106 | a file's view data is `view_` followed by the file name |
| `Callbacks.DeleteFileData` | app.py:107 | a file's delete data is `del_` followed by the file name |
| `Callbacks.Route` | app.py:162-476 | the chain of tests sends a button to the select, bot-delete, library, view or file-delete branch exactly when its data starts with that branch's prefix |
| `Callbacks.RouteByPrefix` | app.py:183-449 | with only the leading prefix taken off, the button data is rebuilt from the prefix and the recovered name |
| `Callbacks.RouteAsWritten` | app.py:183-449 | the handler as written picks the same branch as routing by prefix; only the name handed on can differ |
| `Callbacks.RemoveAll` | app.py:184 | `str.replace(prefix, "")` never lengthens the data |
| `Callbacks.AsWrittenSelectsWrongBot` | app.py:184 | as written, the button of the bot `select_me` selects `me` |
| `Callbacks.AsWrittenDeletesWrongBot` | app.py:194 | as written, the delete button of the bot `delbot_x` deletes `x` |
| `Callbacks.RemoveAllAbsent` | app.py:184 | `replace` leaves text alone when the pattern does not occur in it |
| `Callbacks.RemoveAllShortens` | app.py:184 | `replace(prefix, "")` shortens any text in which the prefix occurs |
| `Callbacks.RemoveAllLeading` | app.py:449 | `replace` deletes a leading occurrence of the pattern and goes on with the rest |
| `Callbacks.RemoveAllKeepsText` | app.py:449 | `replace` leaves text alone when the pattern's first character does not occur in it |
| `Callbacks.RemoveAllRecoversIff` | app.py:184 | `(prefix + name).replace(prefix, "")` is `name` exactly when the prefix does not occur in `name` |
| `Callbacks.AsWrittenRoutesIff` | app.py:183-194 | as written, a select or bot-delete button reaches its own bot exactly when the bot's name does not contain the button's prefix |
| `Callbacks.AsWrittenFileRoutesIff` | app.py:361-449 | as written, a library, view or file-delete button reaches its own library or file exactly when the name does not contain the button's prefix |
| `Callbacks.AsWrittenDeleteFileName` | app.py:449 | as written, a file-delete button hands on its file name with every `del_` deleted |
| `Callbacks.AsWrittenDeletesUnprefixed` | app.py:449 | as written, the delete button of the file `del_` + `rest` deletes `rest` whenever `rest` holds no `d` |
| `Callbacks.AsWrittenDeletesWrongFile` | app.py:449 | as written, the delete button of the file `del_app.py` deletes `app.py` |
| `Callbacks.RouteByPrefixRecoversNames` | app.py:162-476 | taking off only the leading prefix routes every select, delete, library, view and file-delete button to its own name |
| `Callbacks.RouteSelect` | app.py:183-184 | a select button is routed to its bot, whatever its name |
| `Callbacks.RouteDeleteBot` | app.py:193-194 | a bot-delete button is routed to its bot, whatever its name |
| `Callbacks.RouteLib` | app.py:361-365 | a library button is routed to its library |
| `Callbacks.RouteView` | app.py:417-421 | a view button is routed to its file |
| `Callbacks.RouteDeleteFile` | app.py:445-449 | a file-delete button is routed to its file |
| `Seqs.StartsWith` | app.py:183 | `s.startswith(prefix)` holds exactly when the prefix is no longer than `s` and agrees with it position by position |
| `Seqs.EndsWith` | app.py:101 | `s.endswith(suffix)` holds exactly when the suffix is no longer than `s` and agrees with its last characters position by position |
| `Seqs.Head` | app.py:104 | `s[:n]` is the first min(len(s), n) elements of `s` |
| `Seqs.Last` | app.py:305 | `s[-n:]` for n > 0 is the last min(len(s), n) elements of `s` |
| `Seqs.Filter` | app.py:100-102 | a list comprehension with a condition keeps, in their order, only elements that satisfy the condition, and every element that does |

## Findings

| source | as written | input that shows it | evidently intended | confidence | as-written member | corrected member |
|---|---|---|---|---|---|---|
| app.py:184 | `query.data.replace("select_", "")` deletes every occurrence of `select_` | a bot named `select_me`; its button carries `select_select_me` and selects `me` | drop only the leading `select_` | high, not executed | `Callbacks.AsWrittenSelectsWrongBot` | `Callbacks.RouteSelect` |
| app.py:194 | `query.data.replace("delbot_", "")` deletes every occurrence of `delbot_` | a bot named `delbot_x`; its delete button deletes the bot `x` (its directory and registry entry) | drop only the leading `delbot_` | high, not executed | `Callbacks.AsWrittenDeletesWrongBot` | `Callbacks.RouteDeleteBot` |
| app.py:449 | `query.data.replace("del_", "")` deletes every occurrence of `del_` | a file `del_app.py` (for example unpacked from an uploaded archive); its delete button removes `app.py` | drop only the leading `del_` | high, not executed | `Callbacks.AsWrittenDeletesWrongFile` | `Callbacks.RouteDeleteFile` |

The library and view buttons (app.py:365, 421) use the same `replace`
pattern; `Callbacks.AsWrittenFileRoutesIff` states for them, and for the
file-delete button, exactly which names are misrouted. `Callbacks.Route` takes the rule as a parameter.
`RouteAsWritten` is the code as written. `RouteByPrefix` is the corrected
routing. `Callbacks.AsWrittenRoutesIff` shows which names the handler as
written misroutes: exactly those that contain the prefix. The handler
methods of `Supervisor` take the bot or file name as a parameter; how it is
recovered from the button is modelled in `Callbacks`.

## Left out

- Telegram glue is not modelled: message texts, button labels, keyboard
  objects, the `/start` greeting, the main menu and the handler wiring
  (app.py:56-78, 132-151, 597-616). Keyboards are modelled as rows of
  callback data.
- Spawning `python3 app.py` is not modelled. It is a foreign process call,
  so its pid is the parameter `spawnedPid`. A failed spawn (an exception
  after the log file is opened) is not modelled.
- `os.kill` is not performed. It becomes the parameter `KillResult`. Any
  `OSError` other than `ProcessLookupError` is one value, `KillError`, which
  aborts the handler.
- JSON encoding and decoding in `load_db`/`save_db` are not modelled. The
  file is a map held in state. An unparsable file, which raises in the
  source, is not modelled.
- `pip install` runs, `unzip`, `auto_install_libs`, document downloads
  (`handle_py`, `handle_zip`) and the splitting of typed package names are
  foreign process or network calls. Only the reporting of an install result
  is modelled (`Views.ReportInstall`).
- File contents and the truncation of `log.txt` by a run are not modelled.
  A directory is its list of regular file names, and a new file is listed
  last. The result of reading the log or a viewed file (missing,
  unreadable or its text) is passed in to `Views.ViewLog` and
  `Views.ViewFile`. A log that does not decode raises out of the handler
  (app.py:304-305 has no `try`), which `Views.ViewLog` reports as
  `LogReadFails`. The character encoding itself is not modelled.
- Path resolution is not modelled. A bot directory is identified by
  (user id, name). Names containing `/` or `..`, and the empty name, denote
  other paths in the source (the empty name denotes the user's own
  directory), and the model does not follow them. The existence checks of
  `CreateBot`, `DeleteFile`, `Run` and `Status` (app.py:486, 452, 227,
  327) are membership in the model's listing. For `Run`, `Status` and
  `DeleteFile` this misses a subdirectory named like the file (for example
  a directory `app.py`, which `os.path.exists` accepts). For `CreateBot` it
  misses a regular file in the user's directory that has the bot's name,
  which also makes the source refuse.
- Concurrent handlers are not modelled. The code has no locking, and the
  model is sequential.
- The library installation by typed names (the `waiting_for_libs` branch
  of the text handler, app.py:504-535) runs `pip install` on the split
  text, clears the flag and reports the result. Only its report is
  modelled (`Views.ReportInstall`); the flag and the `pip` run are not.
- The bare menu buttons (`new_bot`, `install_menu`, `custom_libs`,
  `current_info`, `back`) only set flags or show text. They are
  represented only by their routing in `Callbacks.Route`.
- `Callbacks.RemoveAll`: its contract states only that the result is no
  longer than the input. What it does to a bot name is stated by the lemmas
  beside it.

=== FILE: callbacks.dfy ===
/**
 * Callback data: the strings carried by the inline buttons, and the
 * routing of a pressed button's data to the handler branch that serves it.
 * Routing is written once, parameterised by how the argument after a
 * prefix such as `select_` is recovered.
 */
module Callbacks {
  import opened Seqs

  const SelectPrefix := "select_"
  const DeleteBotPrefix := "delbot_"
  const LibPrefix := "lib_"
  const ViewPrefix := "view_"
  const DeleteFilePrefix := "del_"

  /** `f"select_{bot_name}"`: the data of a bot's select button. */
  function SelectData(bot: string): (d: string)
    ensures StartsWith(d, SelectPrefix) && d[|SelectPrefix|..] == bot
  {
    SelectPrefix + bot
  }

  /** `f"delbot_{bot_name}"`: the data of a bot's delete button. */
  function DeleteBotData(bot: string): (d: string)
    ensures StartsWith(d, DeleteBotPrefix) && d[|DeleteBotPrefix|..] == bot
  {
    DeleteBotPrefix + bot
  }

  /** `f"lib_{lib}"`: the data of a library's install button. */
  function LibData(lib: string): (d: string)
    ensures StartsWith(d, LibPrefix) && d[|LibPrefix|..] == lib
  {
    LibPrefix + lib
  }

  /** `f"view_{f}"`: the data of a file's view button. */
  function ViewData(file: string): (d: string)
    ensures StartsWith(d, ViewPrefix) && d[|ViewPrefix|..] == file
  {
    ViewPrefix + file
  }

  /** `f"del_{f}"`: the data of a file's delete button. */
  function DeleteFileData(file: string): (d: string)
    ensures StartsWith(d, DeleteFilePrefix) && d[|DeleteFilePrefix|..] == file
  {
    DeleteFilePrefix + file
  }

  /** The handler branch a button leads to, with the name it carries. */
  datatype Action =
    | BotsMenu | NewBot | Select(bot: string) | DeleteBot(bot: string)
    | Run | Stop | ShowLog | ShowStatus | InstallMenu | InstallLib(lib: string)
    | CustomLibs | FilesMenu | ViewFile(file: string) | DeleteFile(file: string)
    | CurrentInfo | Back | Unhandled

  /** How the name after a prefix is recovered from the data. */
  datatype ArgumentRule =
    | ReplaceEverywhere  // `data.replace(prefix, "")`, as the handlers do
    | RemovePrefix       // only the leading prefix is taken off

  /**
   * Python's `s.replace(pat, "")`: scanning left to right, every
   * non-overlapping occurrence of `pat` is deleted.
   */
  function RemoveAll(s: string, pat: string): (r: string)
    requires pat != []
    ensures |r| <= |s|
    decreases |s|
  {
    if |s| < |pat| then s
    else if s[..|pat|] == pat then RemoveAll(s[|pat|..], pat)
    else [s[0]] + RemoveAll(s[1..], pat)
  }

  function Argument(rule: ArgumentRule, data: string, prefix: string): (arg: string)
    requires prefix != [] && StartsWith(data, prefix)
  {
    match rule
    case ReplaceEverywhere => RemoveAll(data, prefix)
    case RemovePrefix => data[|prefix|..]
  }

  /**
   * The chain of tests in the callback handler, in its order: exact
   * matches and prefix tests are tried one after the other and the first
   * that fits decides the branch. No two prefixes overlap, so a button
   * with a name reaches the branch of its own prefix.
   */
  function Route(data: string, rule: ArgumentRule): (a: Action)
    ensures a.Select? <==> StartsWith(data, SelectPrefix)
    ensures a.DeleteBot? <==> StartsWith(data, DeleteBotPrefix)
    ensures a.InstallLib? <==> StartsWith(data, LibPrefix)
    ensures a.ViewFile? <==> StartsWith(data, ViewPrefix)
    ensures a.DeleteFile? <==> StartsWith(data, DeleteFilePrefix)
    ensures a.Select? ==> a.bot == Argument(rule, data, SelectPrefix)
    ensures a.DeleteBot? ==> a.bot == Argument(rule, data, DeleteBotPrefix)
    ensures a.InstallLib? ==> a.lib == Argument(rule, data, LibPrefix)
    ensures a.ViewFile? ==> a.file == Argument(rule, data, ViewPrefix)
    ensures a.DeleteFile? ==> a.file == Argument(rule, data, DeleteFilePrefix)
  {
    PrefixLetters(data);
    if data == "bots_menu" then BotsMenu
    else if data == "new_bot" then NewBot
    else if StartsWith(data, SelectPrefix) then Select(Argument(rule, data, SelectPrefix))
    else if StartsWith(data, DeleteBotPrefix) then DeleteBot(Argument(rule, data, DeleteBotPrefix))
    else if data == "run" then Run
    else if data == "stop" then Stop
    else if data == "log" then ShowLog
    else if data == "status" then ShowStatus
    else if data == "install_menu" then InstallMenu
    else if StartsWith(data, LibPrefix) then InstallLib(Argument(rule, data, LibPrefix))
    else if data == "custom_libs" then CustomLibs
    else if data == "files_menu" then FilesMenu
    else if StartsWith(data, ViewPrefix) then ViewFile(Argument(rule, data, ViewPrefix))
    else if StartsWith(data, DeleteFilePrefix) then DeleteFile(Argument(rule, data, DeleteFilePrefix))
    else if data == "current_info" then CurrentInfo
    else if data == "back" then Back
    else Unhandled
  }

  /** The letters that tell the prefixes apart from each other and from the exact commands. */
  lemma PrefixLetters(data: string)
    ensures StartsWith(data, SelectPrefix) ==> data[0] == 's' && data[1] == 'e'
    ensures StartsWith(data, DeleteBotPrefix) ==> data[0] == 'd' && data[3] == 'b'
    ensures StartsWith(data, LibPrefix) ==> data[0] == 'l' && data[1] == 'i'
    ensures StartsWith(data, ViewPrefix) ==> data[0] == 'v'
    ensures StartsWith(data, DeleteFilePrefix) ==> data[0] == 'd' && data[3] == '_'
  {
  }

  /** The branch an action belongs to, with the name it carries blanked out. */
  function Branch(a: Action): (b: Action) {
    match a
    case Select(_) => Select("")
    case DeleteBot(_) => DeleteBot("")
    case InstallLib(_) => InstallLib("")
    case ViewFile(_) => ViewFile("")
    case DeleteFile(_) => DeleteFile("")
    case _ => a
  }

  lemma SplitAtPrefix(data: string, prefix: string)
    ensures StartsWith(data, prefix) ==> data == prefix + data[|prefix|..]
  {
    if StartsWith(data, prefix) {
      assert data == data[..|prefix|] + data[|prefix|..];
    }
  }

  /** Routing with the prefix taken off only at the front: the data is rebuilt from the name. */
  function RouteByPrefix(data: string): (a: Action)
    ensures a.Select? ==> data == SelectData(a.bot)
    ensures a.DeleteBot? ==> data == DeleteBotData(a.bot)
    ensures a.InstallLib? ==> data == LibData(a.lib)
    ensures a.ViewFile? ==> data == ViewData(a.file)
    ensures a.DeleteFile? ==> data == DeleteFileData(a.file)
  {
    SplitAtPrefix(data, SelectPrefix);
    SplitAtPrefix(data, DeleteBotPrefix);
    SplitAtPrefix(data, LibPrefix);
    SplitAtPrefix(data, ViewPrefix);
    SplitAtPrefix(data, DeleteFilePrefix);
    Route(data, RemovePrefix)
  }

  /**
   * Routing as the handler does it. It picks the same branch as routing by
   * prefix; the two differ only in the name handed to the branch.
   */
  function RouteAsWritten(data: string): (a: Action)
    ensures Branch(a) == Branch(RouteByPrefix(data))
  {
    Route(data, ReplaceEverywhere)
  }

  /**
   * As written, a bot named `select_me` cannot be selected: its button
   * carries `select_select_me`, and deleting every `select_` leaves `me`.
   */
  lemma AsWrittenSelectsWrongBot()
    ensures RouteAsWritten(SelectData("select_me")) == Select("me")
  {
  }

  /** And deleting the bot `delbot_x` deletes the bot `x` instead. */
  lemma AsWrittenDeletesWrongBot()
    ensures RouteAsWritten(DeleteBotData("delbot_x")) == DeleteBot("x")
  {
  }

  /** `pat` occurs in `s` starting at index `i`. */
  predicate OccursAt(s: string, pat: string, i: int) {
    0 <= i && i + |pat| <= |s| && s[i..i + |pat|] == pat
  }

  /** `pat` occurs nowhere in `s`. */
  predicate Avoids(s: string, pat: string) {
    forall i | 0 <= i <= |s| :: !OccursAt(s, pat, i)
  }

  lemma {:induction false} RemoveAllAbsent(s: string, pat: string)
    requires pat != [] && Avoids(s, pat)
    ensures RemoveAll(s, pat) == s
    decreases |s|
  {
    if |s| >= |pat| {
      assert s[0..|pat|] == s[..|pat|];
      assert !OccursAt(s, pat, 0);
      assert Avoids(s[1..], pat) by {
        forall i | OccursAt(s[1..], pat, i)
          ensures false
        {
          assert s[1..][i..i + |pat|] == s[i + 1..i + 1 + |pat|];
          assert OccursAt(s, pat, i + 1);
        }
      }
      RemoveAllAbsent(s[1..], pat);
      assert [s[0]] + s[1..] == s;
    }
  }

  /** Taking the prefix off recovers every name, whatever it contains. */
  lemma RouteByPrefixRecoversNames(name: string)
    ensures RouteByPrefix(SelectData(name)) == Select(name)
    ensures RouteByPrefix(DeleteBotData(name)) == DeleteBot(name)
    ensures RouteByPrefix(LibData(name)) == InstallLib(name)
    ensures RouteByPrefix(ViewData(name)) == ViewFile(name)
    ensures RouteByPrefix(DeleteFileData(name)) == DeleteFile(name)
  {
    RouteSelect(name);
    RouteDeleteBot(name);
    RouteLib(name);
    RouteView(name);
    RouteDeleteFile(name);
  }

  // Each of the following follows from the contracts of `Route` (the
  // branch) and `RouteByPrefix` (the data rebuilt from the name).
  lemma RouteSelect(name: string)
    ensures RouteByPrefix(SelectData(name)) == Select(name)
  {
  }

  lemma RouteDeleteBot(name: string)
    ensures RouteByPrefix(DeleteBotData(name)) == DeleteBot(name)
  {
  }

  lemma RouteLib(name: string)
    ensures RouteByPrefix(LibData(name)) == InstallLib(name)
  {
  }

  lemma RouteView(name: string)
    ensures RouteByPrefix(ViewData(name)) == ViewFile(name)
  {
  }

  lemma RouteDeleteFile(name: string)
    ensures RouteByPrefix(DeleteFileData(name)) == DeleteFile(name)
  {
  }

  /**
   * Deleting a pattern everywhere shortens any text in which it occurs.
   */
  lemma {:induction false} RemoveAllShortens(s: string, pat: string, i: int)
    requires pat != [] && OccursAt(s, pat, i)
    ensures |RemoveAll(s, pat)| < |s|
    decreases |s|
  {
    if s[..|pat|] != pat {
      assert i != 0 by {
        assert s[0..|pat|] == s[..|pat|];
      }
      assert s[1..][i - 1..i - 1 + |pat|] == s[i..i + |pat|];
      RemoveAllShortens(s[1..], pat, i - 1);
    }
  }

  /**
   * `(pat + name).replace(pat, "")` gives back `name` exactly when `pat`
   * does not occur in `name`.
   */
  lemma RemoveAllRecoversIff(name: string, pat: string)
    requires pat != []
    ensures RemoveAll(pat + name, pat) == name <==> Avoids(name, pat)
  {
    assert (pat + name)[..|pat|] == pat && (pat + name)[|pat|..] == name;
    if Avoids(name, pat) {
      RemoveAllAbsent(name, pat);
    } else {
      var i :| 0 <= i <= |name| && OccursAt(name, pat, i);
      RemoveAllShortens(name, pat, i);
    }
  }

  /**
   * The handler selects, and deletes, the bot whose button was pressed
   * exactly when the bot's name does not contain the button's prefix.
   */
  lemma AsWrittenRoutesIff(name: string)
    ensures RouteAsWritten(SelectData(name)) == Select(name) <==> Avoids(name, SelectPrefix)
    ensures RouteAsWritten(DeleteBotData(name)) == DeleteBot(name) <==> Avoids(name, DeleteBotPrefix)
  {
    RouteByPrefixRecoversNames(name);
    RemoveAllRecoversIff(name, SelectPrefix);
    RemoveAllRecoversIff(name, DeleteBotPrefix);
  }

  /**
   * The library, view and file-delete buttons recover their name the same
   * way, and go wrong for exactly the names that contain their prefix.
   */
  lemma AsWrittenFileRoutesIff(name: string)
    ensures RouteAsWritten(LibData(name)) == InstallLib(name) <==> Avoids(name, LibPrefix)
    ensures RouteAsWritten(ViewData(name)) == ViewFile(name) <==> Avoids(name, ViewPrefix)
    ensures RouteAsWritten(DeleteFileData(name)) == DeleteFile(name) <==> Avoids(name, DeleteFilePrefix)
  {
    RouteByPrefixRecoversNames(name);
    RemoveAllRecoversIff(name, LibPrefix);
    RemoveAllRecoversIff(name, ViewPrefix);
    RemoveAllRecoversIff(name, DeleteFilePrefix);
  }

  /**
   * As written, the delete button of a file `del_app.py` (say, unpacked
   * from an uploaded archive) deletes `app.py` instead.
   */
  lemma AsWrittenDeletesWrongFile()
    ensures RouteAsWritten(DeleteFileData("del_app.py")) == DeleteFile("app.py")
  {
    assert "del_app.py" == DeleteFilePrefix + "app.py";
    AsWrittenDeletesUnprefixed("app.py");
  }

  /** As written, the delete button of the file `del_` + `rest` deletes `rest` instead, whenever `rest` holds no `d`. */
  lemma AsWrittenDeletesUnprefixed(rest: string)
    requires DeleteFilePrefix[0] !in rest
    ensures RouteAsWritten(DeleteFileData(DeleteFilePrefix + rest)) == DeleteFile(rest)
  {
    AsWrittenDeleteFileName(DeleteFilePrefix + rest);
    RemoveAllLeading(DeleteFilePrefix, rest);
    RemoveAllKeepsText(rest, DeleteFilePrefix);
  }

  /** A leading occurrence of the pattern is deleted first. */
  lemma RemoveAllLeading(pat: string, rest: string)
    requires pat != []
    ensures RemoveAll(pat + rest, pat) == RemoveAll(rest, pat)
  {
    assert (pat + rest)[..|pat|] == pat && (pat + rest)[|pat|..] == rest;
  }

  /** Text without the pattern's first letter is left alone. */
  lemma {:induction false} RemoveAllKeepsText(s: string, pat: string)
    requires pat != [] && pat[0] !in s
    ensures RemoveAll(s, pat) == s
    decreases |s|
  {
    if |s| >= |pat| {
      assert s[..|pat|][0] == s[0] != pat[0];
      RemoveAllKeepsText(s[1..], pat);
      assert [s[0]] + s[1..] == s;
    }
  }


  /** As written, a file-delete button hands on its file name with every `del_` deleted. */
  lemma AsWrittenDeleteFileName(name: string)
    ensures RouteAsWritten(DeleteFileData(name)) == DeleteFile(RemoveAll(name, DeleteFilePrefix))
  {
    var d := DeleteFileData(name);
    assert d[..4] == DeleteFilePrefix && d[4..] == name;
  }

}

=== FILE: menus.dfy ===
/**
 * The menus whose contents are computed: the library keyboard, the file
 * menu of a bot, and the list of a user's bots with their run markers.
 * A keyboard is a list of rows of buttons; a button is represented by its
 * callback data (labels are display text and are not modelled).
 */
module Menus {
  import opened Seqs
  import opened Names
  import opened Callbacks

  /** The libraries offered for one-click installation, in menu order. */
  const CommonLibs: seq<string> := [
    "requests", "aiohttp", "python-telegram-bot",
    "flask", "fastapi", "beautifulsoup4",
    "pandas", "numpy", "pillow"
  ]

  const RowWidth: nat := 3
  const CustomLibsData := "custom_libs"
  const BackData := "back"

  /** One install button per library, in order. */
  function LibButtons(libs: seq<string>): (r: seq<string>)
    ensures |r| == |libs|
    ensures forall i :: 0 <= i < |libs| ==> r[i] == LibData(libs[i])
  {
    seq(|libs|, i requires 0 <= i < |libs| => LibData(libs[i]))
  }

  /**
   * The install keyboard: the library buttons in rows of three (a shorter,
   * non-empty last row for the remainder), then the row for typing
   * libraries by hand and the row for going back.
   */
  method LibsKeyboard(libs: seq<string>) returns (keyboard: seq<seq<string>>)
    ensures |keyboard| == (|libs| + RowWidth - 1) / RowWidth + 2
    ensures keyboard[|keyboard| - 2..] == [[CustomLibsData], [BackData]]
    ensures Flatten(keyboard[..|keyboard| - 2]) == LibButtons(libs)
    ensures forall i :: 0 <= i < |keyboard| - 2 ==> 0 < |keyboard[i]| <= RowWidth
    ensures forall i :: 0 <= i < |keyboard| - 3 ==> |keyboard[i]| == RowWidth
    ensures |libs| % RowWidth == 0 ==> forall i :: 0 <= i < |keyboard| - 2 ==> |keyboard[i]| == RowWidth
  {
    keyboard := [];
    var row: seq<string> := [];
    for n := 0 to |libs|
      invariant Flatten(keyboard) + row == LibButtons(libs[..n])
      invariant |keyboard| == n / RowWidth && |row| == n % RowWidth
      invariant forall i :: 0 <= i < |keyboard| ==> |keyboard[i]| == RowWidth
    {
      assert LibButtons(libs[..n + 1]) == LibButtons(libs[..n]) + [LibData(libs[n])];
      row := row + [LibData(libs[n])];
      if |row| == RowWidth {
        assert (keyboard + [row])[..|keyboard|] == keyboard;
        keyboard := keyboard + [row];
        row := [];
      }
    }
    assert libs[..|libs|] == libs;
    if row != [] {
      assert (keyboard + [row])[..|keyboard|] == keyboard;
      keyboard := keyboard + [row];
    }
    ghost var chunks := keyboard;
    keyboard := keyboard + [[CustomLibsData], [BackData]];
    assert keyboard[..|keyboard| - 2] == chunks;
  }

  /** The nine common libraries make three full rows before the two fixed rows. */
  method CommonLibsKeyboard() returns (keyboard: seq<seq<string>>)
    ensures |keyboard| == 5
    ensures forall i :: 0 <= i < 3 ==> |keyboard[i]| == RowWidth
    ensures keyboard[3..] == [[CustomLibsData], [BackData]]
  {
    keyboard := LibsKeyboard(CommonLibs);
  }

  /** Files never offered in the file menu: the log and the uploaded archive. */
  function IsHiddenFile(f: string): (b: bool)
    ensures b ==> |f| == 7 && !EndsWith(f, ".py")
  {
    f == "log.txt" || f == "bot.zip"
  }

  /** A script: the name ends in `.py` (the name `.py` itself included). */
  function IsPyFile(f: string): (b: bool)
    ensures b <==> |f| >= 3 && f[|f| - 3] == '.' && f[|f| - 2] == 'p' && f[|f| - 1] == 'y'
  {
    EndsWith(f, ".py")
  }

  /** A file the files menu counts: anything but the two hidden names. */
  function IsVisibleFile(f: string): (b: bool)
    ensures b <==> f != "log.txt" && f != "bot.zip"
  {
    !IsHiddenFile(f)
  }

  /** A file the menu lists after the scripts: visible and not a script. */
  function IsOtherFile(f: string): (b: bool)
    ensures b ==> IsVisibleFile(f)
    ensures IsVisibleFile(f) ==> (b <==> !IsPyFile(f))
  {
    !IsPyFile(f) && !IsHiddenFile(f)
  }

  /** The entries of the file menu: scripts first, then other files. */
  datatype FileMenu = FileMenu(scripts: seq<string>, others: seq<string>)

  const MaxScripts: nat := 5
  const MaxOthers: nat := 3

  /**
   * The file menu for a directory listing `files` (in listing order): the
   * first five `.py` files and the first three other files, leaving out
   * `log.txt` and `bot.zip`. Each part keeps the listing order and is cut
   * short only at its limit.
   */
  function MenuFiles(files: seq<string>): (m: FileMenu)
    ensures |m.scripts| <= MaxScripts && |m.others| <= MaxOthers
    ensures forall i :: 0 <= i < |m.scripts| ==> IsPyFile(m.scripts[i])
    ensures forall i :: 0 <= i < |m.others| ==> IsOtherFile(m.others[i])
    ensures IsSubsequence(m.scripts, files) && IsSubsequence(m.others, files)
    ensures |m.scripts| < MaxScripts ==> forall f :: f in files && IsPyFile(f) ==> f in m.scripts
    ensures |m.others| < MaxOthers ==> forall f :: f in files && IsOtherFile(f) ==> f in m.others
    // No file is skipped in favour of a later one: while a stretch of the
    // listing holds no more files of a kind than the limit, the menu starts
    // with exactly those files.
    ensures forall k :: 0 <= k <= |files| && |Filter(files[..k], IsPyFile)| <= MaxScripts ==>
      StartsWith(m.scripts, Filter(files[..k], IsPyFile))
    ensures forall k :: 0 <= k <= |files| && |Filter(files[..k], IsOtherFile)| <= MaxOthers ==>
      StartsWith(m.others, Filter(files[..k], IsOtherFile))
  {
    var py, other := Filter(files, IsPyFile), Filter(files, IsOtherFile);
    var m := FileMenu(Head(py, MaxScripts), Head(other, MaxOthers));
    forall k | 0 <= k <= |files| && |Filter(files[..k], IsPyFile)| <= MaxScripts
      ensures StartsWith(m.scripts, Filter(files[..k], IsPyFile))
    {
      HeadKeepsFilteredPrefix(files, k, IsPyFile, MaxScripts);
    }
    forall k | 0 <= k <= |files| && |Filter(files[..k], IsOtherFile)| <= MaxOthers
      ensures StartsWith(m.others, Filter(files[..k], IsOtherFile))
    {
      HeadKeepsFilteredPrefix(files, k, IsOtherFile, MaxOthers);
    }
    PrefixIsSubsequence(py, |m.scripts|);
    SubsequenceTransitive(m.scripts, py, files);
    PrefixIsSubsequence(other, |m.others|);
    SubsequenceTransitive(m.others, other, files);
    m
  }

  /** A `.py` name is neither `log.txt` nor `bot.zip`. */
  lemma PyFileNotHidden(f: string)
    requires IsPyFile(f)
    ensures !IsHiddenFile(f)
  {
    // Both hidden names end in a different three characters than `.py`.
  }

  /** Every listed file is in the directory, and neither hidden file is ever listed. */
  lemma MenuFilesHidesLogAndArchive(files: seq<string>)
    ensures forall f :: f in MenuFiles(files).scripts + MenuFiles(files).others ==> f in files && !IsHiddenFile(f)
  {
    // Both parts are subsequences of the listing, scripts end in `.py` and
    // the other files are by definition neither hidden name.
  }

  /** A file's row: its view button and its delete button, each leading back to the file. */
  function FileRow(f: string): (row: seq<string>)
    ensures |row| == 2
    ensures RouteByPrefix(row[0]) == ViewFile(f) && RouteByPrefix(row[1]) == DeleteFile(f)
  {
    RouteView(f);
    RouteDeleteFile(f);
    [ViewData(f), DeleteFileData(f)]
  }

  /**
   * The file keyboard for a bot directory (`None` when it does not exist):
   * one row per menu file, then the back row.
   */
  function FilesKeyboard(listing: Option<seq<string>>): (keyboard: seq<seq<string>>)
    ensures 1 <= |keyboard| <= MaxScripts + MaxOthers + 1
    ensures keyboard[|keyboard| - 1] == [BackData]
    ensures listing.None? ==> keyboard == [[BackData]]
    ensures listing.Some? ==>
      var m := MenuFiles(listing.value);
      |keyboard| == |m.scripts| + |m.others| + 1
      && forall i :: 0 <= i < |keyboard| - 1 ==> keyboard[i] == FileRow((m.scripts + m.others)[i])
  {
    match listing
    case None => [[BackData]]
    case Some(files) =>
      var m := MenuFiles(files);
      var entries := m.scripts + m.others;
      seq(|entries|, i requires 0 <= i < |entries| => FileRow(entries[i])) + [[BackData]]
  }

  /** The files-menu screen: nothing to show, or how many files and their keyboard. */
  datatype FilesScreen = NoFiles | Files(count: nat, keyboard: seq<seq<string>>)

  /**
   * The files menu counts every file other than `log.txt` and `bot.zip`,
   * although its keyboard lists at most eight of them.
   */
  function FilesMenuScreen(listing: Option<seq<string>>): (s: FilesScreen)
    ensures s.NoFiles? <==> (listing.None? || forall f :: f in listing.value ==> IsHiddenFile(f))
    ensures s.Files? ==> listing.Some? && s.keyboard == FilesKeyboard(listing)
    ensures s.Files? ==> s.count == |Filter(listing.value, IsVisibleFile)| > 0
  {
    match listing
    case None => NoFiles
    case Some(files) =>
      var visible := Filter(files, IsVisibleFile);
      if visible == [] then
        assert forall f :: f in files ==> IsHiddenFile(f) by {
          forall f | f in files ensures IsHiddenFile(f) {
            var i :| 0 <= i < |files| && files[i] == f;
          }
        }
        NoFiles
      else
        Files(|visible|, FilesKeyboard(listing))
  }

  /** A bot in the user's list, with its green (running) or red marker. */
  datatype BotEntry = BotEntry(name: string, running: bool)

  /**
   * The user's bot list, in directory order: a bot is marked running
   * exactly when its registry key is present; no process is consulted.
   */
  function BotList(userId: string, bots: seq<string>, registry: map<string, int>): (list: seq<BotEntry>)
    ensures |list| == |bots|
    ensures forall i :: 0 <= i < |bots| ==>
      list[i].name == bots[i] && (list[i].running <==> RegistryKey(userId, bots[i]) in registry)
  {
    seq(|bots|, i requires 0 <= i < |bots| => BotEntry(bots[i], RegistryKey(userId, bots[i]) in registry))
  }

  const NewBotData := "new_bot"

  /**
   * The data of the bots keyboard: a select and a delete button per bot,
   * in listing order, then the new-bot row and the back row.
   */
  function BotsKeyboard(bots: seq<string>): (keyboard: seq<seq<string>>)
    ensures |keyboard| == |bots| + 2
    ensures forall i :: 0 <= i < |bots| ==> keyboard[i] == [SelectData(bots[i]), DeleteBotData(bots[i])]
    ensures keyboard[|bots|..] == [[NewBotData], [BackData]]
  {
    seq(|bots|, i requires 0 <= i < |bots| => [SelectData(bots[i]), DeleteBotData(bots[i])])
      + [[NewBotData], [BackData]]
  }

  /**
   * Pressing a bot's buttons: routing by prefix always reaches that bot,
   * while the handler as written reaches it exactly when the bot's name
   * does not contain the button's prefix.
   */
  lemma BotsKeyboardRoutes(bots: seq<string>)
    ensures var keyboard := BotsKeyboard(bots);
      forall i :: 0 <= i < |bots| ==>
        && RouteByPrefix(keyboard[i][0]) == Select(bots[i])
        && RouteByPrefix(keyboard[i][1]) == DeleteBot(bots[i])
        && (RouteAsWritten(keyboard[i][0]) == Select(bots[i]) <==> Avoids(bots[i], SelectPrefix))
        && (RouteAsWritten(keyboard[i][1]) == DeleteBot(bots[i]) <==> Avoids(bots[i], DeleteBotPrefix))
  {
    var keyboard := BotsKeyboard(bots);
    forall i | 0 <= i < |bots|
      ensures RouteByPrefix(keyboard[i][0]) == Select(bots[i])
      ensures RouteByPrefix(keyboard[i][1]) == DeleteBot(bots[i])
      ensures RouteAsWritten(keyboard[i][0]) == Select(bots[i]) <==> Avoids(bots[i], SelectPrefix)
      ensures RouteAsWritten(keyboard[i][1]) == DeleteBot(bots[i]) <==> Avoids(bots[i], DeleteBotPrefix)
    {
      RouteByPrefixRecoversNames(bots[i]);
      AsWrittenRoutesIff(bots[i]);
    }
  }
}

=== FILE: names.dfy ===
/**
 * Names used by the supervisor: the registry key of a user's bot and the
 * normalisation applied to a bot name typed by the user.
 */
module Names {

  /** The character between the user id and the bot name in a registry key. */
  const Separator: char := '_'

  /** The key `f"{user_id}_{bot_name}"` under which a bot's pid is registered. */
  function RegistryKey(userId: string, botName: string): (k: string)
    ensures |k| == |userId| + 1 + |botName|
    ensures k[..|userId|] == userId && k[|userId|] == Separator && k[|userId| + 1..] == botName
  {
    userId + [Separator] + botName
  }

  /** `str(user.id)` of an account: a non-empty run of decimal digits. */
  function IsUserIdText(u: string): (b: bool)
    ensures b ==> |u| > 0 && Separator !in u
  {
    |u| > 0 && forall i :: 0 <= i < |u| ==> '0' <= u[i] <= '9'
  }

  /**
   * Because a user id never contains the separator, the first separator of
   * a key splits it back into the user id and the bot name: distinct
   * (user, bot) pairs never share a registry entry, whatever the bot name.
   */
  lemma RegistryKeyInjective(u1: string, b1: string, u2: string, b2: string)
    requires IsUserIdText(u1) && IsUserIdText(u2)
    ensures RegistryKey(u1, b1) == RegistryKey(u2, b2) <==> u1 == u2 && b1 == b2
  {
    // Equal keys put their first separator at the same index, so the user
    // ids have equal lengths; the contract of `RegistryKey` does the rest.
  }

  /** Python's `str.isspace()` for one character. */
  function IsSpace(c: char): (b: bool)
    ensures c as int < 128 ==> (b <==> c as int in {9, 10, 11, 12, 13, 28, 29, 30, 31, 32})
    ensures c == ' ' ==> b
  {
    var n := c as int;
    (9 <= n <= 13) || (28 <= n <= 32) || n == 0x85 || n == 0xA0 || n == 0x1680
    || (0x2000 <= n <= 0x200A) || n == 0x2028 || n == 0x2029 || n == 0x202F
    || n == 0x205F || n == 0x3000
  }

  predicate AllSpace(s: string) {
    forall i :: 0 <= i < |s| ==> IsSpace(s[i])
  }

  /** No whitespace at either end. */
  predicate Trimmed(s: string) {
    s == [] || (!IsSpace(s[0]) && !IsSpace(s[|s| - 1]))
  }

  /** Python's `str.lstrip()`. */
  function TrimLeft(s: string): (r: string)
    ensures |r| <= |s| && r == s[|s| - |r|..]
    ensures r == [] || !IsSpace(r[0])
  {
    if s != [] && IsSpace(s[0]) then TrimLeft(s[1..]) else s
  }

  /** Python's `str.rstrip()`. */
  function TrimRight(s: string): (r: string)
    ensures |r| <= |s| && r == s[..|r|]
    ensures r == [] || !IsSpace(r[|r| - 1])
  {
    if s != [] && IsSpace(s[|s| - 1]) then TrimRight(s[..|s| - 1]) else s
  }

  /**
   * Python's `str.strip()`. `StripExact` shows that exactly the whitespace
   * at both ends is removed.
   */
  function Strip(s: string): (r: string)
    ensures Trimmed(r)
  {
    var l := TrimLeft(s);
    var r := TrimRight(l);
    assert r != [] ==> r[0] == l[0];
    r
  }

  lemma {:induction false} TrimLeftSkipsSpace(pre: string, rest: string)
    requires AllSpace(pre) && (rest == [] || !IsSpace(rest[0]))
    ensures TrimLeft(pre + rest) == rest
  {
    if pre != [] {
      assert (pre + rest)[1..] == pre[1..] + rest;
      TrimLeftSkipsSpace(pre[1..], rest);
    }
  }

  lemma {:induction false} TrimRightSkipsSpace(rest: string, post: string)
    requires AllSpace(post) && (rest == [] || !IsSpace(rest[|rest| - 1]))
    ensures TrimRight(rest + post) == rest
  {
    if post != [] {
      assert (rest + post)[..|rest + post| - 1] == rest + post[..|post| - 1];
      TrimRightSkipsSpace(rest, post[..|post| - 1]);
    }
  }

  /**
   * `strip()` removes exactly the whitespace around a trimmed middle: this
   * characterises its result completely.
   */
  lemma StripExact(pre: string, mid: string, post: string)
    requires AllSpace(pre) && AllSpace(post) && Trimmed(mid)
    ensures Strip(pre + mid + post) == mid
  {
    if mid == [] {
      assert pre + mid + post == pre + post;
      TrimLeftSkipsSpace(pre + post, []);
      assert pre + post + [] == pre + post;
      TrimRightSkipsSpace([], []);
    } else {
      assert pre + mid + post == pre + (mid + post);
      TrimLeftSkipsSpace(pre, mid + post);
      TrimRightSkipsSpace(mid, post);
    }
  }

  /** `s.replace(" ", "_")`: every space character becomes an underscore. */
  function ReplaceSpaces(s: string): (r: string)
    ensures |r| == |s| && ' ' !in r
    ensures forall i :: 0 <= i < |s| && s[i] == ' ' ==> r[i] == '_'
    ensures forall i :: 0 <= i < |s| && s[i] != ' ' ==> r[i] == s[i]
  {
    seq(|s|, i requires 0 <= i < |s| => if s[i] == ' ' then '_' else s[i])
  }

  /** A string without spaces is left alone by the replacement. */
  lemma ReplaceSpacesIdentity(s: string)
    requires ' ' !in s
    ensures ReplaceSpaces(s) == s
  {
  }

  /** The bot name made from the user's text: `text.strip().replace(" ", "_")`. */
  function NormaliseBotName(text: string): (name: string)
    ensures ' ' !in name && |name| <= |text|
  {
    ReplaceSpaces(Strip(text))
  }

  /**
   * A normalised name contains no space and no surrounding whitespace, and
   * has as many characters as the stripped text.
   */
  lemma NormalisedNameShape(text: string)
    ensures var name := NormaliseBotName(text);
      ' ' !in name && Trimmed(name) && |name| == |Strip(text)|
  {
    // The replacement keeps the ends of the stripped text, which are not
    // whitespace, and puts `_` in place of every space.
  }

  /** Normalising an already normalised name changes nothing. */
  lemma NormaliseIdempotent(text: string)
    ensures NormaliseBotName(NormaliseBotName(text)) == NormaliseBotName(text)
  {
    // A normalised name is trimmed and has no space, so no padding is
    // dropped and nothing is replaced.
    var n := NormaliseBotName(text);
    NormalisedNameShape(text);
    assert [] + n + [] == n;
    NormaliseDropsPadding([], n, []);
  }

  /** Text without whitespace anywhere is taken as the bot name verbatim. */
  lemma NormalisePlainName(text: string)
    requires forall i :: 0 <= i < |text| ==> !IsSpace(text[i])
    ensures NormaliseBotName(text) == text
  {
    // Such text is trimmed and, a space being whitespace, has no space.
  }

  /**
   * Inside the surrounding whitespace, every space of the typed name becomes
   * `_` and every other character is kept: the name has `_` exactly where
   * the typed name has a space or an underscore.
   */
  lemma NormaliseMarksSpaces(pre: string, mid: string, post: string)
    requires AllSpace(pre) && AllSpace(post) && Trimmed(mid)
    ensures var name := NormaliseBotName(pre + mid + post);
      && |name| == |mid|
      && (forall i :: 0 <= i < |mid| ==> (name[i] == '_' <==> mid[i] == ' ' || mid[i] == '_'))
      && (forall i :: 0 <= i < |mid| && mid[i] != ' ' ==> name[i] == mid[i])
  {
    StripExact(pre, mid, post);
  }

  /**
   * Whitespace around a name is dropped and the name itself, if it has no
   * space inside, is kept as typed.
   */
  lemma NormaliseDropsPadding(pre: string, name: string, post: string)
    requires AllSpace(pre) && AllSpace(post) && Trimmed(name) && ' ' !in name
    ensures NormaliseBotName(pre + name + post) == name
  {
    StripExact(pre, name, post);
    ReplaceSpacesIdentity(name);
  }
}

=== FILE: registry.dfy ===
/**
 * The process registry as a value: the map from registry key to pid that
 * the handlers load, change and save. Each function is the change one
 * handler makes to the loaded map; the imperative handlers are proved to
 * make exactly these changes.
 *
 * A key's presence is all the registry knows: nothing here asks the
 * operating system whether the pid is alive.
 */
module Registry {
  import opened Seqs
  import opened Names

  type Pids = map<string, int>

  /** The result of `os.kill(pid, 9)`. */
  datatype KillResult =
    | Signalled      // the signal was delivered
    | NoSuchProcess  // `ProcessLookupError`, which the handlers swallow
    | KillError      // any other `OSError` (e.g. `PermissionError`): it escapes the handler

  /** `db[key] = pid`: the key now maps to the pid, whatever it held before. */
  function Register(db: Pids, key: string, pid: int): (r: Pids)
    ensures r.Keys == db.Keys + {key} && r[key] == pid
    ensures forall k :: k in db && k != key ==> r[k] == db[k]
  {
    db[key := pid]
  }

  /** `del db[key]`: the key is gone and every other entry is kept. */
  function Unregister(db: Pids, key: string): (r: Pids)
    ensures r.Keys == db.Keys - {key}
    ensures forall k :: k in r ==> r[k] == db[k]
  {
    db - {key}
  }

  /** What a handler reports, and the map it leaves. */
  datatype Step<O> = Step(outcome: O, pids: Pids)

  datatype StopOutcome =
    | NotRunning   // the key was not registered
    | Stopped      // kill sent (delivered or not) and the key removed
    | StopAborted  // the kill raised an error the handler does not catch

  /**
   * Stopping a key: "not running" when it is absent; otherwise the entry is
   * removed whether or not a process received the signal, unless the kill
   * raised an error other than `ProcessLookupError`.
   */
  function Stop(db: Pids, key: string, kill: KillResult): (r: Step<StopOutcome>)
    ensures r.outcome == NotRunning <==> key !in db
    ensures r.outcome == StopAborted <==> key in db && kill == KillError
    ensures r.outcome == Stopped ==> r.pids.Keys == db.Keys - {key}
    ensures r.outcome != Stopped ==> r.pids == db
    ensures forall k :: k in r.pids ==> r.pids[k] == db[k]
  {
    if key !in db then Step(NotRunning, db)
    else if kill == KillError then Step(StopAborted, db)
    else Step(Stopped, Unregister(db, key))
  }

  datatype DeleteOutcome =
    | Deleted        // the handler ran to completion
    | DeleteAborted  // the kill raised an error the handler does not catch

  /**
   * The registry part of deleting a bot: a registered key is killed and
   * removed; an absent key is not an error.
   */
  function Delete(db: Pids, key: string, kill: KillResult): (r: Step<DeleteOutcome>)
    ensures r.outcome == DeleteAborted <==> key in db && kill == KillError
    ensures r.outcome == Deleted ==> r.pids.Keys == db.Keys - {key}
    ensures r.outcome == DeleteAborted ==> r.pids == db
    ensures forall k :: k in r.pids ==> r.pids[k] == db[k]
  {
    if key in db && kill == KillError then Step(DeleteAborted, db)
    else Step(Deleted, Unregister(db, key))
  }

  /** The pid the status view shows: present exactly when the key is registered. */
  function RegisteredPid(db: Pids, key: string): (r: Option<int>)
    ensures r.Some? <==> key in db
    ensures r.Some? ==> r.value == db[key]
  {
    if key in db then Some(db[key]) else None
  }

  /** Running a bot twice keeps only the second pid: there is no "already running" check. */
  lemma RegisterOverwrites(db: Pids, key: string, first: int, second: int)
    ensures Register(Register(db, key, first), key, second) == Register(db, key, second)
  {
    // Both maps have the keys of `db` plus `key`, and agree on each of them.
  }

  /** After a run, the bot shows as running with the new pid. */
  lemma RunThenStatus(db: Pids, key: string, pid: int)
    ensures RegisteredPid(Register(db, key, pid), key) == Some(pid)
  {
  }

  /**
   * A stop that completes is never followed by another: the second stop in
   * a row reports "not running" and changes nothing.
   */
  lemma StopTwice(db: Pids, key: string, first: KillResult, second: KillResult)
    requires Stop(db, key, first).outcome != StopAborted
    ensures var after := Stop(db, key, first).pids;
      Stop(after, key, second) == Step(NotRunning, after)
  {
  }

  /** After a completed delete the bot shows as not running. */
  lemma DeleteThenStatus(db: Pids, key: string, kill: KillResult)
    requires Delete(db, key, kill).outcome == Deleted
    ensures RegisteredPid(Delete(db, key, kill).pids, key) == None
  {
  }

  /**
   * Operations on one user's bot never change what the registry says about
   * a different (user, bot) pair, even when one bot's name extends the
   * other's with underscores.
   */
  lemma OtherBotsUnaffected(db: Pids, u1: string, b1: string, u2: string, b2: string, pid: int, kill: KillResult)
    requires IsUserIdText(u1) && IsUserIdText(u2) && (u1, b1) != (u2, b2)
    ensures var k1, k2 := RegistryKey(u1, b1), RegistryKey(u2, b2);
      && RegisteredPid(Register(db, k1, pid), k2) == RegisteredPid(db, k2)
      && RegisteredPid(Stop(db, k1, kill).pids, k2) == RegisteredPid(db, k2)
      && RegisteredPid(Delete(db, k1, kill).pids, k2) == RegisteredPid(db, k2)
  {
    RegistryKeyInjective(u1, b1, u2, b2);
  }
}

=== FILE: seqs.dfy ===
/**
 * Sequence helpers shared by the model: Python's slicing operators on
 * strings and lists, the list-comprehension filter, and flattening of
 * keyboard rows.
 */
module Seqs {

  datatype Option<+T> = None | Some(value: T)

  function Min(a: int, b: int): (m: int) { if a <= b then a else b }

  /** Python's `s[:n]` for `n >= 0`: the first `n` elements, or all of `s`. */
  function Head<T>(s: seq<T>, n: nat): (r: seq<T>)
    ensures |r| == Min(|s|, n)
    ensures r == s[..|r|]
  {
    if |s| <= n then s else s[..n]
  }

  /** Python's `s[-n:]` for `n > 0`: the last `n` elements, or all of `s`. */
  function Last<T>(s: seq<T>, n: nat): (r: seq<T>)
    requires n > 0
    ensures |r| == Min(|s|, n)
    ensures r == s[|s| - |r|..]
  {
    if |s| <= n then s else s[|s| - n..]
  }

  /** Python's `s.startswith(prefix)`. */
  function StartsWith<T(==)>(s: seq<T>, prefix: seq<T>): (b: bool)
    ensures b <==> |prefix| <= |s| && forall i :: 0 <= i < |prefix| ==> s[i] == prefix[i]
  {
    |prefix| <= |s| && s[..|prefix|] == prefix
  }

  /** Python's `s.endswith(suffix)`. */
  function EndsWith<T(==)>(s: seq<T>, suffix: seq<T>): (b: bool)
    ensures b <==> |suffix| <= |s| && forall i :: 0 <= i < |suffix| ==> s[|s| - |suffix| + i] == suffix[i]
  {
    |suffix| <= |s| && s[|s| - |suffix|..] == suffix
  }

  /**
   * `r` can be obtained from `s` by deleting elements, so the elements of
   * `r` appear in `s` in the same order.
   */
  predicate IsSubsequence<T(==)>(r: seq<T>, s: seq<T>)
    decreases |s|
  {
    if r == [] then true
    else if s == [] then false
    else if r[0] == s[0] then IsSubsequence(r[1..], s[1..])
    else IsSubsequence(r, s[1..])
  }

  /** The list comprehension `[x for x in s if p(x)]`. */
  function Filter<T(==)>(s: seq<T>, p: T -> bool): (r: seq<T>)
    ensures |r| <= |s|
    ensures forall i :: 0 <= i < |r| ==> p(r[i]) && r[i] in s
    ensures forall i :: 0 <= i < |s| && p(s[i]) ==> s[i] in r
    ensures IsSubsequence(r, s)
  {
    if s == [] then []
    else if p(s[0]) then [s[0]] + Filter(s[1..], p)
    else Filter(s[1..], p)
  }

  /** Filtering a prefix of `s` gives a prefix of the filtered `s`. */
  lemma {:induction false} FilterPrefix<T>(s: seq<T>, k: nat, p: T -> bool)
    requires k <= |s|
    ensures StartsWith(Filter(s, p), Filter(s[..k], p))
  {
    if k > 0 {
      assert s[..k][0] == s[0] && s[..k][1..] == s[1..][..k - 1];
      FilterPrefix(s[1..], k - 1, p);
    }
  }

  /**
   * Taking the first `n` filtered elements keeps every element filtered
   * from a prefix of `s` that yields at most `n` of them.
   */
  lemma HeadKeepsFilteredPrefix<T>(s: seq<T>, k: nat, p: T -> bool, n: nat)
    requires k <= |s| && |Filter(s[..k], p)| <= n
    ensures StartsWith(Head(Filter(s, p), n), Filter(s[..k], p))
  {
    FilterPrefix(s, k, p);
  }

  /** A prefix of `s` is a subsequence of `s`. */
  lemma {:induction false} PrefixIsSubsequence<T>(s: seq<T>, n: nat)
    requires n <= |s|
    ensures IsSubsequence(s[..n], s)
  {
    if n > 0 {
      assert s[..n][1..] == s[1..][..n - 1];
      PrefixIsSubsequence(s[1..], n - 1);
    }
  }

  /** Deleting elements twice is deleting elements once. */
  lemma {:induction false} SubsequenceTransitive<T>(a: seq<T>, b: seq<T>, c: seq<T>)
    requires IsSubsequence(a, b) && IsSubsequence(b, c)
    ensures IsSubsequence(a, c)
    decreases |c|
  {
    if a == [] {
    } else if c == [] {
    } else if b[0] == c[0] {
      if a[0] == b[0] {
        SubsequenceTransitive(a[1..], b[1..], c[1..]);
      } else {
        SubsequenceTransitive(a, b[1..], c[1..]);
      }
    } else {
      SubsequenceTransitive(a, b, c[1..]);
    }
    if a != [] && c != [] && !IsSubsequence(a, c[1..]) {
      assert a[0] == b[0] == c[0];
    } else if a != [] && c != [] && a[0] == c[0] {
      SubsequenceDropFirst(a, c[1..]);
    }
  }

  /** Dropping the first element of a subsequence keeps it a subsequence. */
  lemma {:induction false} SubsequenceDropFirst<T>(r: seq<T>, s: seq<T>)
    requires r != [] && IsSubsequence(r, s)
    ensures IsSubsequence(r[1..], s)
    decreases |s|
  {
    if r[1..] != [] && s != [] {
      if r[0] == s[0] {
        SubsequenceDropFirst(r[1..], s[1..]);
        if r[1] != s[0] {
          assert IsSubsequence(r[1..], s[1..]);
        }
      } else {
        SubsequenceDropFirst(r, s[1..]);
        if r[1] == s[0] {
          SubsequenceDropFirst(r[1..], s[1..]);
        }
      }
    }
  }

  /** Concatenation of the rows, in order. */
  function Flatten<T>(rows: seq<seq<T>>): (flat: seq<T>)
  {
    if rows == [] then [] else Flatten(rows[..|rows| - 1]) + rows[|rows| - 1]
  }
}

=== FILE: supervisor.dfy ===
/**
 * The button handlers that drive the process registry, and the creation
 * of a bot from a typed name, as imperative code over the host's state:
 * the registry file (loaded, changed and saved back by each handler) and
 * the bot directories, plus the per-user session that remembers the
 * selected bot.
 *
 * Spawning a process, sending a kill and listing directories are not
 * performed: the pid a spawn returns and the result of a kill are
 * parameters, and a directory is represented by its list of file names.
 */
module Supervisor {
  import opened Seqs
  import opened Names
  import opened Registry

  /** A bot directory `<base>/<user id>/<bot name>`. */
  datatype BotId = BotId(user: string, name: string)

  const AppFile := "app.py"
  const LogFile := "log.txt"

  class Host {
    /** `processes.json`: `None` while the file does not exist. */
    var registryFile: Option<Pids>
    /** Each bot directory with the names of the regular files in it, in listing order. */
    var botDirs: map<BotId, seq<string>>

    constructor (registryFile: Option<Pids>, botDirs: map<BotId, seq<string>>)
      ensures this.registryFile == registryFile && this.botDirs == botDirs
    {
      this.registryFile := registryFile;
      this.botDirs := botDirs;
    }

    /** The map `load_db()` returns: the stored one, or an empty one when there is no file. */
    function Pids(): (db: Pids)
      reads this`registryFile
    {
      match registryFile
      case None => map[]
      case Some(db) => db
    }

    /** `load_db()` */
    method LoadDb() returns (db: Pids)
      ensures db == Pids()
    {
      db := if registryFile.Some? then registryFile.value else map[];
    }

    /** `save_db(db)`: the file now holds exactly `db`. */
    method SaveDb(db: Pids)
      modifies this`registryFile
      ensures registryFile == Some(db) && Pids() == db
    {
      registryFile := Some(db);
    }
  }

  /** The part of `context.user_data` the handlers use. */
  class Session {
    var currentBot: Option<string>
    var waitingForBotName: bool

    constructor ()
      ensures currentBot == None && !waitingForBotName
    {
      currentBot := None;
      waitingForBotName := false;
    }
  }

  /** `if not current_bot`: neither `None` nor the empty name selects a bot. */
  function Selected(current: Option<string>): (b: bool)
    ensures !b <==> current == None || current == Some("")
  {
    current.Some? && current.value != ""
  }

  /** The bot directory exists and holds `app.py`. */
  function HasApp(dirs: map<BotId, seq<string>>, id: BotId): (b: bool)
    ensures b ==> id in dirs && |dirs[id]| > 0
  {
    id in dirs && AppFile in dirs[id]
  }

  /** The listing after `open(log.txt, "w")`: the log file exists (new files are listed last). */
  function WithLogFile(files: seq<string>): (r: seq<string>)
    ensures LogFile in r && StartsWith(r, files)
    ensures forall f :: f in r ==> f in files || f == LogFile
    ensures LogFile in files ==> r == files
    ensures |r| <= |files| + 1
  {
    if LogFile in files then files else files + [LogFile]
  }

  /** A handler that needs a selected bot either refuses or reports an outcome. */
  datatype Reply<+O> = NoBotSelected | Done(outcome: O)

  datatype RunOutcome = NoAppFile | Started(pid: int)

  /**
   * The run button: with `app.py` present, the log file is opened for
   * writing, the script is spawned (its pid is `spawnedPid`) and the pid is
   * registered under the bot's key, replacing any earlier entry. Without
   * `app.py` nothing changes.
   */
  method Run(host: Host, session: Session, userId: string, spawnedPid: int) returns (out: Reply<RunOutcome>)
    modifies host
    ensures out.NoBotSelected? <==> !Selected(session.currentBot)
    ensures out.Done? ==>
      var id := BotId(userId, session.currentBot.value);
      && (out.outcome.NoAppFile? <==> !HasApp(old(host.botDirs), id))
      && (out.outcome.Started? ==>
            && out.outcome.pid == spawnedPid
            && host.Pids() == Register(old(host.Pids()), RegistryKey(userId, id.name), spawnedPid)
            && host.botDirs == old(host.botDirs)[id := WithLogFile(old(host.botDirs)[id])])
    ensures !(out.Done? && out.outcome.Started?) ==>
      host.registryFile == old(host.registryFile) && host.botDirs == old(host.botDirs)
  {
    if !Selected(session.currentBot) {
      return NoBotSelected;
    }
    var bot := session.currentBot.value;
    var id := BotId(userId, bot);
    if !(id in host.botDirs && AppFile in host.botDirs[id]) {
      return Done(NoAppFile);
    }
    host.botDirs := host.botDirs[id := WithLogFile(host.botDirs[id])];
    var db := host.LoadDb();
    db := db[RegistryKey(userId, bot) := spawnedPid];
    host.SaveDb(db);
    return Done(Started(spawnedPid));
  }

  /**
   * The stop button: an unregistered bot is reported as not running and
   * the file is left alone; a registered one is sent the kill and its key
   * removed and saved, whether or not a process received the signal.
   */
  method Stop(host: Host, session: Session, userId: string, kill: KillResult) returns (out: Reply<StopOutcome>)
    modifies host`registryFile
    ensures out.NoBotSelected? <==> !Selected(session.currentBot)
    ensures out.NoBotSelected? ==> host.registryFile == old(host.registryFile)
    ensures out.Done? ==>
      var step := Registry.Stop(old(host.Pids()), RegistryKey(userId, session.currentBot.value), kill);
      && out.outcome == step.outcome
      && host.Pids() == step.pids
      && (out.outcome != Stopped ==> host.registryFile == old(host.registryFile))
  {
    if !Selected(session.currentBot) {
      return NoBotSelected;
    }
    var db := host.LoadDb();
    var key := RegistryKey(userId, session.currentBot.value);
    if key !in db {
      return Done(NotRunning);
    }
    if kill == KillError {
      return Done(StopAborted);
    }
    db := db - {key};
    host.SaveDb(db);
    return Done(Stopped);
  }

  /**
   * The delete button of a bot in the list (no bot needs to be selected):
   * a registered key is killed and removed, the directory is removed if it
   * exists, and the selection is cleared only when it names the deleted bot.
   * A kill error escapes before anything is changed.
   */
  method DeleteBot(host: Host, session: Session, userId: string, botName: string, kill: KillResult)
    returns (out: DeleteOutcome)
    modifies host, session`currentBot
    ensures
      var step := Registry.Delete(old(host.Pids()), RegistryKey(userId, botName), kill);
      out == step.outcome && host.Pids() == step.pids
    ensures RegistryKey(userId, botName) !in old(host.Pids()) ==> host.registryFile == old(host.registryFile)
    ensures out == DeleteAborted ==>
      && host.registryFile == old(host.registryFile)
      && host.botDirs == old(host.botDirs)
      && session.currentBot == old(session.currentBot)
    ensures out == Deleted ==>
      && host.botDirs == old(host.botDirs) - {BotId(userId, botName)}
      && session.currentBot == (if old(session.currentBot) == Some(botName) then None else old(session.currentBot))
  {
    var db := host.LoadDb();
    var key := RegistryKey(userId, botName);
    if key in db {
      if kill == KillError {
        return DeleteAborted;
      }
      db := db - {key};
      host.SaveDb(db);
    }
    host.botDirs := host.botDirs - {BotId(userId, botName)};
    if session.currentBot == Some(botName) {
      session.currentBot := None;
    }
    return Deleted;
  }

  /** What the status button shows. */
  datatype StatusReport = StatusReport(hasApp: bool, fileCount: nat, running: bool, pid: Option<int>)

  /**
   * The status button: "running" means only that the key is registered,
   * and the pid shown is the registered one. The file count counts the
   * regular files of the directory, `log.txt` included.
   */
  method Status(host: Host, session: Session, userId: string) returns (out: Reply<StatusReport>)
    ensures out.NoBotSelected? <==> !Selected(session.currentBot)
    ensures out.Done? ==>
      var id := BotId(userId, session.currentBot.value);
      var key := RegistryKey(userId, id.name);
      && (out.outcome.running <==> key in host.Pids())
      && (out.outcome.pid.Some? <==> out.outcome.running)
      && (out.outcome.pid.Some? ==> out.outcome.pid.value == host.Pids()[key])
      && (out.outcome.hasApp <==> HasApp(host.botDirs, id))
      && out.outcome.fileCount == (if id in host.botDirs then |host.botDirs[id]| else 0)
  {
    if !Selected(session.currentBot) {
      return NoBotSelected;
    }
    var bot := session.currentBot.value;
    var id := BotId(userId, bot);
    var db := host.LoadDb();
    var key := RegistryKey(userId, bot);
    var hasApp := id in host.botDirs && AppFile in host.botDirs[id];
    var isRunning := key in db;
    var filesCount := 0;
    if id in host.botDirs {
      filesCount := |host.botDirs[id]|;
    }
    var pid := if isRunning then Some(db[key]) else None;
    return Done(StatusReport(hasApp, filesCount, isRunning, pid));
  }

  /** The select button of a bot in the list. */
  method SelectBot(session: Session, botName: string)
    modifies session`currentBot
    ensures session.currentBot == Some(botName)
  {
    session.currentBot := Some(botName);
  }

  datatype CreateOutcome = Created(name: string) | AlreadyExists(name: string)

  /** The new-bot button: the next text the user sends is taken as a bot name. */
  method NewBot(session: Session)
    modifies session`waitingForBotName
    ensures session.waitingForBotName
  {
    session.waitingForBotName := true;
  }

  /**
   * The typed name of a new bot, handled while the session waits for one
   * after the new-bot button: it is normalised; an existing directory
   * of that name refuses the creation and makes nothing, otherwise an
   * empty directory is made and selected. Either way the session stops
   * waiting for a name. The registry is not touched.
   */
  method CreateBot(host: Host, session: Session, userId: string, text: string) returns (out: CreateOutcome)
    requires session.waitingForBotName
    modifies host`botDirs, session
    ensures out.name == NormaliseBotName(text)
    ensures out.AlreadyExists? <==> BotId(userId, out.name) in old(host.botDirs)
    ensures out.AlreadyExists? ==>
      host.botDirs == old(host.botDirs) && session.currentBot == old(session.currentBot)
    ensures out.Created? ==>
      host.botDirs == old(host.botDirs)[BotId(userId, out.name) := []] && session.currentBot == Some(out.name)
    ensures !session.waitingForBotName
  {
    var name := NormaliseBotName(text);
    var id := BotId(userId, name);
    if id in host.botDirs {
      session.waitingForBotName := false;
      return AlreadyExists(name);
    }
    host.botDirs := host.botDirs[id := []];
    session.currentBot := Some(name);
    session.waitingForBotName := false;
    return Created(name);
  }

  /** The listing without `name`; the others keep their order. */
  function Without(files: seq<string>, name: string): (r: seq<string>)
    ensures name !in r && IsSubsequence(r, files)
    ensures forall f :: f in files && f != name ==> f in r
  {
    Filter(files, f => f != name)
  }

  /**
   * The delete button of a file: the caller's name is joined to the bot
   * directory as it is; the file is removed if the directory lists it.
   * Without a selected bot the button does nothing.
   */
  method DeleteFile(host: Host, session: Session, userId: string, fileName: string) returns (out: Reply<bool>)
    modifies host`botDirs
    ensures out.NoBotSelected? <==> !Selected(session.currentBot)
    ensures out.NoBotSelected? ==> host.botDirs == old(host.botDirs)
    ensures out.Done? ==>
      var id := BotId(userId, session.currentBot.value);
      && (out.outcome <==> id in old(host.botDirs) && fileName in old(host.botDirs)[id])
      && host.botDirs == (if out.outcome then old(host.botDirs)[id := Without(old(host.botDirs)[id], fileName)]
                          else old(host.botDirs))
  {
    if !Selected(session.currentBot) {
      return NoBotSelected;
    }
    var id := BotId(userId, session.currentBot.value);
    if id in host.botDirs && fileName in host.botDirs[id] {
      host.botDirs := host.botDirs[id := Without(host.botDirs[id], fileName)];
      return Done(true);
    }
    return Done(false);
  }

  /**
   * After the new-bot button, a fresh bot typed as " bot1 " is created under the name `bot1` and
   * selected; running it before a script is uploaded is refused.
   */
  method CreateThenRunScenario(userId: string, pid: int)
    returns (created: CreateOutcome, first: Reply<RunOutcome>)
    ensures created == Created("bot1") && first == Done(NoAppFile)
  {
    var host := new Host(None, map[]);
    var session := new Session();
    NewBot(session);
    PaddedNameNormalises();
    created := CreateBot(host, session, userId, " bot1 ");
    first := Run(host, session, userId, pid);
  }

  /** The padding around a typed `bot1` is dropped. */
  lemma PaddedNameNormalises()
    ensures NormaliseBotName(" bot1 ") == "bot1"
  {
    var name := "bot1";
    assert Trimmed(name) && ' ' !in name;
    assert " " + name + " " == " bot1 ";
    NormaliseDropsPadding(" ", name, " ");
  }

  /**
   * With `app.py` uploaded and the bot selected: run, status, stop, stop
   * again, status.
   */
  method StartStopScenario(userId: string, pid: int)
    returns (started: Reply<RunOutcome>, status: Reply<StatusReport>,
             stop: Reply<StopOutcome>, again: Reply<StopOutcome>, after: Reply<StatusReport>)
    ensures started == Done(Started(pid))
    ensures status == Done(StatusReport(true, 2, true, Some(pid)))
    ensures stop == Done(Stopped) && again == Done(NotRunning)
    ensures after == Done(StatusReport(true, 2, false, None))
  {
    var id := BotId(userId, "bot1");
    var key := RegistryKey(userId, "bot1");
    var host := new Host(None, map[id := [AppFile]]);
    var session := new Session();
    SelectBot(session, "bot1");
    assert WithLogFile([AppFile]) == [AppFile, LogFile];
    started := Run(host, session, userId, pid);
    assert host.botDirs[id] == [AppFile, LogFile];
    assert host.Pids() == Register(map[], key, pid);
    status := Status(host, session, userId);
    stop := Stop(host, session, userId, Signalled);
    assert key !in host.Pids();
    again := Stop(host, session, userId, NoSuchProcess);
    after := Status(host, session, userId);
  }
}

=== FILE: views.dfy ===
/**
 * What the supervisor shows of a bot's text: the tail of its log, a
 * preview of one of its files and the excerpt of a failed installer run.
 * The texts are cut with Python slices before they are displayed.
 */
module Views {
  import opened Seqs

  const LogTailLength: nat := 2000
  const StderrExcerptLength: nat := 500
  const PreviewLength: nat := 1500

  /** Reading a text file of the bot directory. */
  datatype ReadResult =
    | Missing              // `os.path.exists` is false
    | Unreadable           // opening or decoding the file raised
    | Text(content: string)

  /** What the log button shows. */
  datatype LogView =
    | NoLogsYet          // there is no `log.txt` in the bot directory
    | LogReadFails       // the read raises out of the handler: no reply is sent
    | EmptyLog           // the placeholder shown for an empty tail
    | LogTail(text: string)

  /**
   * `f.read()[-2000:]` of the log file, or the placeholder when that is
   * empty. The read is not guarded, so a log that does not decode makes
   * the handler fail instead of answering.
   */
  function ViewLog(read: ReadResult): (v: LogView)
    ensures v.NoLogsYet? <==> read.Missing?
    ensures v.LogReadFails? <==> read.Unreadable?
    ensures v.EmptyLog? <==> read == Text([])
    ensures v.LogTail? ==> read.Text? && EndsWith(read.content, v.text)
    ensures v.LogTail? ==> 0 < |v.text| == Min(|read.content|, LogTailLength)
  {
    match read
    case Missing => NoLogsYet
    case Unreadable => LogReadFails
    case Text(content) =>
      var tail := Last(content, LogTailLength);
      assert EndsWith(content, tail);
      assert tail == [] <==> content == [];
      if tail == [] then EmptyLog else LogTail(tail)
  }

  /** The outcome of a `pip install --target <bot dir>` run, as reported. */
  datatype InstallReport = Installed | InstallFailed(diagnostic: string)

  /**
   * A zero exit status is success; otherwise the first 500 characters of
   * the installer's standard error are shown.
   */
  function ReportInstall(returnCode: int, stderr: string): (r: InstallReport)
    ensures r.Installed? <==> returnCode == 0
    ensures r.InstallFailed? ==> StartsWith(stderr, r.diagnostic)
    ensures r.InstallFailed? ==> |r.diagnostic| == Min(|stderr|, StderrExcerptLength)
  {
    if returnCode == 0 then Installed else InstallFailed(Head(stderr, StderrExcerptLength))
  }

  /** What the view button shows. */
  datatype FileView = FileNotFound | CannotRead | Preview(text: string)

  /** The first 1500 characters of the file, or the matching error. */
  function ViewFile(read: ReadResult): (v: FileView)
    ensures v.FileNotFound? <==> read.Missing?
    ensures v.CannotRead? <==> read.Unreadable?
    ensures v.Preview? ==> read.Text? && StartsWith(read.content, v.text)
    ensures v.Preview? ==> |v.text| == Min(|read.content|, PreviewLength)
  {
    match read
    case Missing => FileNotFound
    case Unreadable => CannotRead
    case Text(content) => Preview(Head(content, PreviewLength))
  }

  /** A log shorter than the limit is shown whole. */
  lemma ShortLogShownWhole(content: string)
    requires 0 < |content| <= LogTailLength
    ensures ViewLog(Text(content)) == LogTail(content)
  {
  }
}
